=== FILE: README.md ===
# Monthly community vote: a Dafny model

This project models the monthly voting cycle of a small Flask backend. Users
submit game suggestions and upvote them. Near the end of the month the top
three suggestions become a poll. The poll is voted on, and its leader is
recorded in a ledger of winners. A scheduler drives the phases: on the 1st of
each month it opens suggestions and clears the month's data. Suggestions
close seven days before the end of the month, and the poll closes seven days
after that.

The whole running system is one immutable value, `Cycle.State`:

- the two phase flags `suggestionsOpen` and `pollOpen`;
- the suggestion, poll and winner tables, as sequences of rows in table order;
- the scheduler's pending one-shot jobs, as a map from job id to job. A
  `'date'` job leaves the map when it fires (`Cycle.FireCloseSuggestions`,
  `Cycle.FireClosePoll`), as APScheduler removes a job with no next run.

Every scheduled job and every request handler is a pure function of that
state. The clock reading `now` is a parameter. Request handlers also return
an HTTP status code.

Modules, following the source files:

- `Calendar`: the month length from `calendar.monthrange` under the Gregorian
  leap rule. Also `datetime ± timedelta(days = n)` as day steps that keep the
  time of day; a step fails with `None`, as Python raises `OverflowError`,
  outside the years 1 to 9999. Also the suggestion close date.
- `TitleMatch`: the duplicate test of POST /suggestions. On SQLite,
  SQLAlchemy's `ilike` becomes `lower(title) LIKE lower(?)`. So `%` and `_`
  in a submitted title are wildcards. SQLite's `lower` folds the ASCII
  letters only, and so does the model: other letters compare exactly.
- `Models`: the three record shapes and their column bounds. Also SQLite's
  row-id rule for `INTEGER PRIMARY KEY`: a new row's id is the largest id in
  the table plus one, or 1 in an empty table. This is why poll row ids start
  again at 1 after the poll table is emptied.
- `Ranking`: `order_by(votes.desc())`, with and without `limit(3)`.
- `Scheduler`: `add_job(..., id = ..., replace_existing = True)` as a map
  update.
- `Cycle`: the state and the scheduled jobs of app.py.
- `Routes`: the request handlers of routes.py.
- `Lifecycle`: arbitrary sequences of requests and jobs, and the table
  invariants they all keep.
- `Binding`: which flag values the handlers actually read (see Findings).
- `Scenario`: one month on concrete data. Three games are suggested, and a
  case variant of the first is refused. After voting, the poll holds C, A
  and B. A wins, and closing the poll a second time adds nothing.

Each gated handler takes the flag it reads as a parameter `gate`. Its
contract therefore holds whichever value the handler sees. `Lifecycle`'s
invariants hold for every choice of gates, under either reading of the
flags.

SQL leaves the order of rows with equal votes open. Where the model must
pick an order, it keeps insertion order among ties, and `PollLeader` takes
the first entry with the most votes. Every contract about the top-three
selection and the poll leader is stated so that it holds whatever order the
database returns for ties. `Ranking.TopSelectionsAgreeOnLeastVote` shows
that two admissible selections can differ only among suggestions with equal
votes.

Four behaviours of the code are easy to misread, and the model keeps each
as the code has it:

- The order of suggestions with equal votes is whatever the database
  returns; no query breaks ties.
- POST /close_suggestions is gated on the suggestion flag and answers 400
  when it is down. It registers no `close_poll_task`, whereas the scheduled
  `close_suggestions` job flips the flags unconditionally and registers it.
- The duplicate test uses `ilike`, which treats `%` and `_` as wildcards.
  `TitleMatch.WildcardMatchesAnything` shows that a title of `%` collides
  with every stored title.
- POST /state can set each flag to any value, including both up or both
  down.
- The scheduler keeps its jobs in memory. A restart between the scheduled
  close of suggestions and the poll's close date drops `close_poll_task`,
  and start-up registers only `close_suggestions_task`. No winner is then
  recorded that month, and the poll is cleared on the 1st. `Cycle.Restart`
  states this.

## Model

| member | source | states |
|---|---|---|
| Calendar.SuggestionsCloseDate | app.py:72-75 | The close date lies in the year and month of `now`, on day (days in month − 7), always between the 21st and the 24th, at 23:59:59.000000 |
| Calendar.FebruaryCloseDay | app.py:73-75 | In February suggestions close on the 21st, or on the 22nd in a leap year |
| Calendar.CloseDateSevenDaysBeforeEnd | app.py:74-75 | Adding seven days to the close date gives back the end of the month |
| Calendar.IsLeap | app.py:73 | The Gregorian rule: years not divisible by 4 are common, century years are common unless divisible by 400, and the rest are leap years |
| Calendar.DaysInMonth | app.py:73 | `calendar.monthrange`: 28 days exactly in a common February, 29 exactly in a leap February, 30 exactly in April, June, September and November, 31 otherwise |
| Calendar.AddDays | app.py:93 | `d + timedelta(days = n)` is a valid date-time with the same time of day, or `None` where Python overflows; adding 0 days returns `d` |
| Calendar.AddDaysNone | app.py:93 | For up to 31 days, the sum is `None` exactly when it would pass 31 December 9999 |
| Calendar.SubDays | app.py:75 | `d - timedelta(days = n)` is a valid date-time with the same time of day, or `None` where Python overflows; subtracting 0 days returns `d` |
| Calendar.SubDaysNone | app.py:75 | For up to 31 days, the difference is `None` exactly when it would pass before 1 January of year 1 |
| Calendar.NextDay | app.py:93 | One day later is a valid date-time with the same time of day. It fails only after 31 December 9999, and stepping back a day undoes it |
| Calendar.PrevDay | app.py:75 | One day earlier is a valid date-time with the same time of day. It fails only before 1 January of year 1 |
| Calendar.NextAfterPrev | app.py:75 | Stepping back a day and then forward returns to the start |
| Calendar.AddThenSubDays | app.py:93 | Whenever `d + timedelta(days = n)` exists, subtracting the same timedelta from it gives back `d` |
| Calendar.SubDaysWithinMonth | app.py:75 | Subtracting fewer days than the day of the month only lowers the day |
| Calendar.AddDaysWithinMonth | app.py:93 | Adding days that stay within the month only raises the day |
| Calendar.EndOfMonth | app.py:73-74 | The last day of the month of `now` at 23:59:59.000000; the next day, if any, is a 1st |
| TitleMatch.Like | routes.py:51 | `text ILIKE pattern`: a non-empty pattern of only `%` matches every text, and a pattern without `%` matches only texts of its own length |
| TitleMatch.FoldEqLike | routes.py:51-53 | A title equal to a stored one up to ASCII case always matches it under `ilike`, so such a duplicate is always refused |
| TitleMatch.LikeWithoutWildcards | routes.py:51 | For a title without `%` or `_`, an `ilike` match is exactly equality up to ASCII case |
| TitleMatch.WildcardMatchesAnything | routes.py:51 | A submitted `%` matches every stored title, though it equals none longer than one character up to case |
| TitleMatch.Lower | routes.py:51 | Folding changes exactly the ASCII capitals, each into its own lower-case letter (code point + 32) |
| Models.NextRowId | models.py:9 | A new row id is one more than the largest id present, or 1 for an empty table, and so differs from every id present |
| Models.IndexOf | routes.py:81-83 | Lookup by primary key: `None` exactly when the id is absent, otherwise the first position holding it |
| Models.SubMultisetDistinctIds | models.py:9 | Any selection of rows from a table with distinct ids has distinct ids |
| Ranking.SortByVotes | routes.py:67 | The result is a permutation of the input, ordered by non-increasing votes |
| Ranking.TopSuggestions | app.py:107 | The top-k query returns min(k, n) of the suggestions, most votes first, and none of them has fewer votes than any suggestion left out |
| Ranking.TopSelectionsAgreeOnLeastVote | routes.py:133 | Two admissible top-k selections differ only in suggestions whose vote counts are equal |
| Scheduler.AddJob | app.py:84 | Registering under an id leaves exactly that job pending under it, adds only that id, and leaves every other id's job unchanged |
| Scheduler.AddJobReplaces | app.py:122 | Registering twice under one id leaves only the second registration |
| Cycle.OpenSuggestions | app.py:69-84 | Whatever the prior phase, suggestions open and the poll closes. `close_suggestions_task` is pending for the close date, other jobs are kept, and the tables are untouched |
| Cycle.OpenSuggestionsIdempotent | app.py:69-84 | Opening twice at the same moment is opening once |
| Cycle.CloseSuggestions | app.py:89-124 | `now + 7 days` overflows exactly after 24 December 9999, and then nothing changes. Otherwise the flags become (closed, poll open), suggestions and winners are kept, and the poll is drawn from the suggestions. `close_poll_task` is pending for exactly seven days after `now` at the same time of day, and other jobs are kept |
| Cycle.StartPoll | app.py:95-118 | The shared close step: flags (closed, poll open), the poll drawn from the suggestions, and the suggestions, winners and jobs unchanged |
| Cycle.FreshPoll | app.py:103-116 | One poll row per selected suggestion, in order, copying its id and title, with 0 votes and the creation time `now`. Each row's id is the one SQLite assigns when the rows are inserted one at a time into the emptied table |
| Cycle.InsertedIdsDistinct | app.py:110-116 | Row ids assigned one insertion at a time are pairwise distinct |
| Cycle.PollDrawnFrom | routes.py:142-148 | A poll drawn from the suggestions has at most three rows, exactly three when there are three suggestions, and no votes |
| Cycle.FreshPollDrawn | app.py:103-116 | With distinct suggestion ids, the new poll has min(3, n) rows at zero votes with distinct row ids. Each row copies the id and title of a distinct suggestion, and no suggestion left out has more votes than one taken |
| Cycle.FreshPollSources | routes.py:142-148 | The poll rows copy the ids and titles of distinct stored suggestions |
| Cycle.FreshPollDominates | routes.py:133 | No suggestion left out of the poll has more votes than a suggestion taken into it |
| Cycle.PollLeader | app.py:131 | `None` exactly for an empty poll, otherwise a poll entry with the most votes |
| Cycle.ClosePoll | app.py:127-146 | Only the winner ledger can change, and an empty poll changes nothing. Otherwise the title of an entry with the most votes ends up in the ledger. If every entry with the most votes is already a winner, nothing changes. The ledger gains at most one row, and that row carries the title of an entry with the most votes that was not yet a winner, a fresh id and `wonAt = now` |
| Cycle.ClosePollIdempotent | app.py:133-142 | Closing the poll twice, at any two moments, equals closing it once |
| Cycle.ClearVotesAndSuggestions | app.py:149-158 | The suggestion and poll tables become empty; the winners, flags and jobs stay |
| Cycle.ScheduleCloseSuggestions | app.py:167-176 | At start-up only the jobs change, and they become exactly what `open_suggestions` would register |
| Cycle.FireCloseSuggestions | app.py:89-124 | When `close_suggestions_task` fires it is no longer pending; suggestions and winners are kept, the flags flip and `close_poll_task` is pending whenever `now + 7 days` exists, and other jobs are kept |
| Cycle.FireClosePoll | app.py:127-146 | When `close_poll_task` fires it is no longer pending, every other job is kept, and the rest of the state is exactly what `close_poll` leaves |
| Cycle.Restart | app.py:65 | A restart keeps the tables and starts the flags afresh. The in-memory job store starts empty, and start-up registers only `close_suggestions_task` (app.py:167-178), so a pending `close_poll_task` is lost |
| Routes.SetState | routes.py:24-36 | Each flag present in the request is set and each absent one kept; tables and jobs are untouched. The reply shows the flag values the handler reads, not the ones just set |
| Routes.SetStateIdempotent | routes.py:24-31 | Repeating a state override changes nothing more |
| Routes.AddSuggestion | routes.py:38-59 | 403 exactly when the gate is closed. 400 exactly for a missing, empty or over-100-character title. 409 exactly for an acceptable title with an `ilike` match among the stored titles, which includes every title equal to a stored one up to case. 201 exactly otherwise, appending one row with a fresh id, that title and 0 votes. Every refusal leaves the state unchanged |
| Routes.NoFoldDuplicate | routes.py:51-53 | A title with no `ilike` match is not equal, up to ASCII case, to any stored title |
| Routes.ListSuggestions | routes.py:64-71 | GET /suggestions returns every stored suggestion exactly once, most votes first |
| Routes.Upvote | routes.py:75-89 | 403 when the gate is closed and 404 for an unknown id, both without change. Otherwise only that suggestion gains exactly one vote, and the reply reports the new count |
| Routes.VotePoll | routes.py:160-177 | 403 when the gate is closed and 404 for an unknown poll row, both without change. Otherwise only that row gains exactly one vote, and the reply reports the new count |
| Routes.CloseSuggestionsRoute | routes.py:120-155 | An open gate gives 200, flags (closed, poll open) and a poll drawn from the suggestions, with suggestions, winners and jobs unchanged and no `close_poll_task` added. A closed gate gives 400 and no change |
| Routes.UpvotesAreCounted | routes.py:85-87 | After any run of upvotes, each suggestion has gained exactly as many votes as there were requests naming it, and nothing else has changed |
| Routes.UpvoteStep | routes.py:81-87 | One upvote keeps every id and title and adds one vote exactly to the named suggestion |
| Lifecycle.RunPreservesValid | models.py:8-24 | Every sequence of requests and jobs keeps the invariants. Suggestion ids are distinct, and titles are 1 to 100 characters and distinct up to case. The poll has at most three rows, each a snapshot of a distinct stored suggestion. Winner ids are distinct, and winner titles are unique and fit `String(100)` |
| Lifecycle.WinnerTitlesStayDistinct | app.py:135-138 | Winner titles stay pairwise distinct across any sequence of requests and jobs |
| Lifecycle.StepPreservesValid | models.py:8-24 | Each single request or job keeps the invariants |
| Lifecycle.AddPreservesValid | routes.py:45-57 | A stored submission keeps ids distinct and titles acceptable and distinct up to case |
| Lifecycle.UpvotePreservesValid | routes.py:81-87 | Upvoting keeps the invariants |
| Lifecycle.VotePollPreservesValid | routes.py:166-172 | Poll voting keeps the invariants |
| Lifecycle.ClosePollPreservesValid | app.py:131-139 | Closing the poll keeps winner ids distinct and titles unique and within 100 characters |
| Lifecycle.TitlesFitColumns | models.py:10-23 | In a valid state suggestion and poll titles fit `String(255)` and winner titles fit `String(100)`, none empty |
| Lifecycle.PollTitleAcceptable | models.py:17 | In a valid state, every poll row's title is non-empty and at most 100 characters, as it copies a stored suggestion's title |
| Lifecycle.WinnerAppendValid | models.py:23 | Appending a winner with a fresh id and a new acceptable title keeps the ledger valid |
| Lifecycle.Initial | models.py:8-24 | A deployment with empty tables, under any flag values, satisfies the invariants |
| Binding.RunOpenSuggestions | app.py:77-78 | A scheduled job sets the live flags and leaves the routes module's copies as they were |
| Binding.RunCloseSuggestions | app.py:95-96 | The scheduled close sets the live flags and leaves the routes module's copies as they were |
| Binding.PostSuggestion | routes.py:40-41 | As written, POST /suggestions refuses with 403 exactly when the import-time copy is false |
| Binding.PostSuggestionLive | routes.py:18 | Gated on the live flag, POST /suggestions refuses with 403 exactly when suggestions are closed |
| Binding.ImportedGateIgnoresPhase | routes.py:2 | With the import-time copy, a process started closed still refuses new titles after suggestions open, and one started open still accepts them after the poll opens |
| Binding.LiveGateFollowsPhase | routes.py:38-59 | With the live flag, a new acceptable title is accepted after `open_suggestions` and refused after `close_suggestions` |
| Scenario.FirstSubmission | routes.py:55-59 | The first suggestion is stored under row id 1 with 0 votes |
| Scenario.CaseVariantRefused | routes.py:51-53 | "game a" is refused with 409 after "Game A" |
| Scenario.LaterSubmissions | routes.py:55-59 | "Game B" and "Game C" get row ids 2 and 3 |
| Scenario.DifferentGames | routes.py:51 | Two titles "Game " followed by different capital letters, such as "Game A", "Game B" and "Game C", do not match one another under `ilike` |
| Scenario.Voting | routes.py:85-87 | Five upvotes for A, two for B and nine for C, in any order, give those counts |
| Scenario.Ranked | app.py:107 | The top three by votes are C, A, B |
| Scenario.PollFromVotes | app.py:93-122 | Closing suggestions on 22 February 2024 gives poll rows C, A, B with ids 1 to 3 and 0 votes, and the poll is due to close on 29 February |
| Scenario.Winning | app.py:131-142 | With A at ten poll votes, closing the poll on 29 February records "Game A" as winner 1, won then, and closing it again adds nothing |

## Findings

| source | as written | input that shows it | evidently intended | confidence | as-written member | corrected member |
|---|---|---|---|---|---|---|
| routes.py:2 | The handlers gate on `suggestionsOpen` and `pollOpen` as imported by value once, at routes.py:40, 78, 124 and 163. The setters the scheduled jobs call do not rebind those copies. POST /state's reply (routes.py:34-35) shows the same stale copies | The process starts with suggestions closed. `open_suggestions` fires on the 1st, and POST /suggestions with a new title answers 403. Started open instead, POST /suggestions answers 201 after `close_suggestions` has opened the poll | Gates read the live flags, as `fetch_state` does by re-importing them (routes.py:18) | medium; not executed. It rests on the state module's setters rebinding module globals, and state.py is not part of this model | Binding.ImportedGateIgnoresPhase | Binding.LiveGateFollowsPhase |

Because every `Routes` handler takes its gate as a parameter, the rest of
the model covers both halves. `Binding.PostSuggestion` passes the import-time
copy, and `Binding.PostSuggestionLive` passes the live flag.

## Left out

- Flask routing, JSON marshalling, CORS, the `after_request` logging and the
  index routes are framework glue. So are GET /state (both registrations,
  routes.py:16 and 113; they only read the flags), GET /poll (routes.py:94-111;
  it lists the poll table in table order) and GET /scheduler_jobs: plain
  reads of the state the model holds.
- Login, password hashing, flask_login sessions and the admin dashboard
  (routes.py:201-232): foreign library calls with no part in the cycle.
- SQLAlchemy sessions, commit failures and every `except Exception` path
  that answers 500 or only prints are left out. Each operation is atomic.
- Concurrent requests are left out: the model serves requests one at a
  time. Flask may serve them on several threads, and nothing in the code
  serializes them. An upvote or a poll vote reads the count into Python
  and writes back the new value (routes.py:86, 171), so two concurrent
  votes can count once. The duplicate test is a query followed by a
  separate insert (routes.py:51-57), and the title column has no unique
  constraint (models.py:10), so two concurrent submissions of one title
  can both be stored. `Routes.UpvotesAreCounted` and `Lifecycle`'s
  case-distinct-title invariant hold for requests taken one at a time.
  This includes the scheduled close committing the poll delete before the
  new rows (app.py:103-104), which could leave an empty poll if the second
  commit failed.
- Malformed request bodies are left out: a missing or non-object JSON body
  in POST /state, which raises inside the handler; non-boolean flag values,
  which the handler passes to the state module's setters unchecked (so a
  string `"false"` would be stored, and it is truthy); and non-string
  titles (a falsy one answers 400 at routes.py:45-46). A title here is a
  string or absent, and a flag a boolean.
- APScheduler internals are left out: the background thread, when a job
  fires (the model fires a job as a step of its own), misfire handling, `start`, `shutdown` and `atexit`. Firing matters at a
  start-up after the month's close date (the 21st to the 24th, by
  `Calendar.SuggestionsCloseDate`), when `schedule_close_suggestions`
  registers a run date already in the past. The two monthly cron jobs
  (app.py:160-164) get generated ids and are registered once at import, so the job map holds
  only the two fixed-id one-shot jobs.
- Clocks and time zones are left out. `now` is a parameter. The database
  column defaults (`current_timestamp`, `datetime.utcnow`) take the same
  reading.
- `print` diagnostics, the `Winner.__repr__` method, the `User` model,
  migrations and `utils.error_response` are left out. The last only pairs a
  message with a status code; the model keeps the code.
- Cycle.PollLeader: it picks the first entry with the most votes, where SQL
  may return any such entry. `Cycle.ClosePoll` therefore states only that
  the recorded title belongs to an entry with the most votes.
- Ranking.TopSuggestions: the model keeps insertion order among tied vote
  counts, where the database may return tied rows in any order. The
  contract states the selection and its non-increasing vote order, which
  hold for every tie order, but not which of several tied rows comes
  first.

=== FILE: binding.dfy ===
/** The running process as Python binds its names. The routes module does
    `from state import suggestionsOpen, pollOpen` once, at import, which
    copies the two values into names of its own; the setters called by the
    scheduled jobs rebind the names in `state` and never those copies. A
    `Server` therefore holds the live state and, beside it, the flag values
    the route handlers keep reading. */
module Binding {
  import opened Wrappers
  import opened Calendar
  import opened Models
  import opened Cycle
  import opened Routes

  datatype Server = Server(live: State, routeSuggestionsOpen: bool, routePollOpen: bool)

  /** Process start: the routes module copies whatever flags the state
      module starts with. */
  function Boot(s: State): (srv: Server)
    ensures srv.live == s
    ensures srv.routeSuggestionsOpen == s.suggestionsOpen && srv.routePollOpen == s.pollOpen
  {
    Server(s, s.suggestionsOpen, s.pollOpen)
  }

  /** A scheduled job changes the live state only. */
  function RunOpenSuggestions(srv: Server, now: DateTime): (r: Server)
    requires ValidDateTime(now)
    ensures r.live.suggestionsOpen && !r.live.pollOpen
    ensures r.routeSuggestionsOpen == srv.routeSuggestionsOpen && r.routePollOpen == srv.routePollOpen
  {
    srv.(live := OpenSuggestions(srv.live, now))
  }

  function RunCloseSuggestions(srv: Server, now: DateTime): (r: Server)
    requires ValidDateTime(now)
    ensures AddDays(now, PollDays).Some? ==> !r.live.suggestionsOpen && r.live.pollOpen
    ensures r.routeSuggestionsOpen == srv.routeSuggestionsOpen && r.routePollOpen == srv.routePollOpen
  {
    srv.(live := CloseSuggestions(srv.live, now))
  }

  /** POST /suggestions as written: gated on the import-time copy. */
  function PostSuggestion(srv: Server, title: Option<string>, now: DateTime): (r: Reply<nat>)
    ensures r.status == Forbidden <==> !srv.routeSuggestionsOpen
  {
    AddSuggestion(srv.live, srv.routeSuggestionsOpen, title, now)
  }

  /** POST /suggestions as intended: gated on the live flag, as GET /state
      reads it. */
  function PostSuggestionLive(srv: Server, title: Option<string>, now: DateTime): (r: Reply<nat>)
    ensures r.status == Forbidden <==> !srv.live.suggestionsOpen
  {
    AddSuggestion(srv.live, srv.live.suggestionsOpen, title, now)
  }

  /** As written, the submission gate never follows the phase: if the process
      started with suggestions closed, they stay refused after the monthly
      job opens them; if it started with them open, they stay accepted after
      the poll opens. */
  lemma ImportedGateIgnoresPhase(s: State, title: string, now: DateTime)
    requires ValidDateTime(now) && AddDays(now, PollDays).Some?
    requires AcceptableTitle(title) && !TitleTaken(s.suggestions, title)
    ensures !s.suggestionsOpen ==>
      var srv := RunOpenSuggestions(Boot(s), now);
      srv.live.suggestionsOpen && PostSuggestion(srv, Some(title), now).status == Forbidden
    ensures s.suggestionsOpen ==>
      var srv := RunCloseSuggestions(Boot(s), now);
      !srv.live.suggestionsOpen && PostSuggestion(srv, Some(title), now).status == Created
  {
    if s.suggestionsOpen {
      var srv := RunCloseSuggestions(Boot(s), now);
      assert srv.live.suggestions == s.suggestions;
    }
  }

  /** Gated on the live flag, a new title is accepted exactly while the
      suggestion phase is open: after the monthly opening job, and not after
      the poll opens. */
  lemma LiveGateFollowsPhase(srv: Server, title: string, now: DateTime)
    requires ValidDateTime(now) && AddDays(now, PollDays).Some?
    requires AcceptableTitle(title) && !TitleTaken(srv.live.suggestions, title)
    ensures PostSuggestionLive(RunOpenSuggestions(srv, now), Some(title), now).status == Created
    ensures PostSuggestionLive(RunCloseSuggestions(srv, now), Some(title), now).status == Forbidden
  {
    assert RunOpenSuggestions(srv, now).live.suggestions == srv.live.suggestions;
  }
}

=== FILE: calendar.dfy ===
/** Gregorian calendar arithmetic on naive date-times, as Python's `calendar`
    and `datetime` modules perform it: `calendar.monthrange` gives the length
    of a month, and adding or subtracting `timedelta(days = n)` moves a
    date-time n whole days while keeping its time of day, failing (Python's
    `OverflowError`) when the result leaves the years 1 to 9999. */
module Calendar {
  import opened Wrappers

  /** `datetime.MINYEAR` and `datetime.MAXYEAR`. */
  const MinYear := 1
  const MaxYear := 9999

  datatype DateTime = DateTime(year: int, month: int, day: int,
                               hour: int, minute: int, second: int, microsecond: int)

  /** The Gregorian leap rule of `calendar.isleap`: every fourth year, except
      the century years, except every fourth century. */
  predicate IsLeap(year: int): (b: bool)
    ensures year % 4 != 0 ==> !b
    ensures year % 100 == 0 && year % 400 != 0 ==> !b
    ensures year % 400 == 0 ==> b
    ensures year % 4 == 0 && year % 100 != 0 ==> b
  {
    year % 4 == 0 && (year % 100 != 0 || year % 400 == 0)
  }

  /** The second component of `calendar.monthrange(year, month)`. */
  function DaysInMonth(year: int, month: int): (n: int)
    requires 1 <= month <= 12
    ensures 28 <= n <= 31
    ensures n == 28 <==> month == 2 && !IsLeap(year)
    ensures n == 29 <==> month == 2 && IsLeap(year)
    ensures n == 30 <==> month in {4, 6, 9, 11}
  {
    if month == 2 then (if IsLeap(year) then 29 else 28)
    else if month == 4 || month == 6 || month == 9 || month == 11 then 30
    else 31
  }

  /** Every value a Python `datetime` can hold. */
  predicate ValidDateTime(d: DateTime)
  {
    && MinYear <= d.year <= MaxYear
    && 1 <= d.month <= 12
    && 1 <= d.day <= DaysInMonth(d.year, d.month)
    && 0 <= d.hour < 24
    && 0 <= d.minute < 60
    && 0 <= d.second < 60
    && 0 <= d.microsecond < 1000000
  }

  predicate SameTimeOfDay(a: DateTime, b: DateTime)
  {
    a.hour == b.hour && a.minute == b.minute && a.second == b.second && a.microsecond == b.microsecond
  }

  /** The date-time one day later; `None` past 31 December 9999. */
  function NextDay(d: DateTime): (r: Option<DateTime>)
    requires ValidDateTime(d)
    ensures r.None? <==> (d.year == MaxYear && d.month == 12 && d.day == 31)
    ensures r.Some? ==> ValidDateTime(r.value) && SameTimeOfDay(d, r.value)
    ensures r.Some? ==> PrevDay(r.value) == Some(d)
  {
    if d.day < DaysInMonth(d.year, d.month) then Some(d.(day := d.day + 1))
    else if d.month < 12 then Some(d.(month := d.month + 1, day := 1))
    else if d.year < MaxYear then Some(d.(year := d.year + 1, month := 1, day := 1))
    else None
  }

  /** The date-time one day earlier; `None` before 1 January of year 1. */
  function PrevDay(d: DateTime): (r: Option<DateTime>)
    requires ValidDateTime(d)
    ensures r.None? <==> (d.year == MinYear && d.month == 1 && d.day == 1)
    ensures r.Some? ==> ValidDateTime(r.value) && SameTimeOfDay(d, r.value)
  {
    if d.day > 1 then Some(d.(day := d.day - 1))
    else if d.month > 1 then Some(d.(month := d.month - 1, day := DaysInMonth(d.year, d.month - 1)))
    else if d.year > MinYear then Some(d.(year := d.year - 1, month := 12, day := 31))
    else None
  }

  /** Stepping back a day and then forward again returns to the start. */
  lemma NextAfterPrev(d: DateTime)
    requires ValidDateTime(d)
    ensures PrevDay(d).Some? ==> NextDay(PrevDay(d).value) == Some(d)
  {
  }

  /** `d + timedelta(days = n)`; `None` where Python raises `OverflowError`. */
  function AddDays(d: DateTime, n: nat): (r: Option<DateTime>)
    requires ValidDateTime(d)
    ensures r.Some? ==> ValidDateTime(r.value) && SameTimeOfDay(d, r.value)
    ensures n == 0 ==> r == Some(d)
    decreases n
  {
    if n == 0 then Some(d)
    else match NextDay(d)
      case None => None
      case Some(e) => AddDays(e, n - 1)
  }

  /** `d - timedelta(days = n)`; `None` where Python raises `OverflowError`. */
  function SubDays(d: DateTime, n: nat): (r: Option<DateTime>)
    requires ValidDateTime(d)
    ensures r.Some? ==> ValidDateTime(r.value) && SameTimeOfDay(d, r.value)
    ensures n == 0 ==> r == Some(d)
    decreases n
  {
    if n == 0 then Some(d)
    else match PrevDay(d)
      case None => None
      case Some(e) => SubDays(e, n - 1)
  }

  /** Within a month's reach of the calendar's end, `d + timedelta(days = n)`
      overflows exactly when it would pass 31 December 9999. */
  lemma {:induction false} AddDaysNone(d: DateTime, n: nat)
    requires ValidDateTime(d) && n <= 31
    ensures AddDays(d, n).None? <==> d.year == MaxYear && d.month == 12 && d.day + n > 31
    decreases n
  {
    if n > 0 {
      match NextDay(d)
      case None =>
      case Some(e) => AddDaysNone(e, n - 1);
    }
  }

  /** Within a month's reach of the calendar's start, `d - timedelta(days = n)`
      overflows exactly when it would pass before 1 January of year 1. */
  lemma {:induction false} SubDaysNone(d: DateTime, n: nat)
    requires ValidDateTime(d) && n <= 31
    ensures SubDays(d, n).None? <==> d.year == MinYear && d.month == 1 && d.day <= n
    decreases n
  {
    if n > 0 {
      match PrevDay(d)
      case None =>
      case Some(e) => SubDaysNone(e, n - 1);
    }
  }

  /** Subtracting n + 1 days is subtracting n days and then one more. */
  lemma {:induction false} SubDaysLastStep(d: DateTime, n: nat)
    requires ValidDateTime(d)
    ensures SubDays(d, n + 1) == (match SubDays(d, n)
                                  case None => None
                                  case Some(e) => PrevDay(e))
    decreases n
  {
    if n > 0 {
      match PrevDay(d)
      case None =>
      case Some(e) => SubDaysLastStep(e, n - 1);
    }
  }

  /** Whenever `d + timedelta(days = n)` exists, subtracting the same
      timedelta from it gives back `d`. */
  lemma {:induction false} AddThenSubDays(d: DateTime, n: nat)
    requires ValidDateTime(d)
    ensures AddDays(d, n).Some? ==> SubDays(AddDays(d, n).value, n) == Some(d)
    decreases n
  {
    if n > 0 {
      match NextDay(d)
      case None =>
      case Some(e) =>
        AddThenSubDays(e, n - 1);
        if AddDays(e, n - 1).Some? {
          SubDaysLastStep(AddDays(e, n - 1).value, n - 1);
        }
    }
  }

  /** Within one month, subtracting days only lowers the day of the month. */
  lemma {:induction false} SubDaysWithinMonth(d: DateTime, n: nat)
    requires ValidDateTime(d)
    requires n < d.day
    ensures SubDays(d, n) == Some(d.(day := d.day - n))
    decreases n
  {
    if n > 0 {
      SubDaysWithinMonth(d.(day := d.day - 1), n - 1);
    }
  }

  /** `datetime(now.year, now.month, last_day, 23, 59, 59)` where `last_day`
      comes from `calendar.monthrange(now.year, now.month)`. */
  function EndOfMonth(now: DateTime): (r: DateTime)
    requires ValidDateTime(now)
    ensures ValidDateTime(r)
    ensures r.year == now.year && r.month == now.month
    ensures r.day == DaysInMonth(now.year, now.month)
    ensures r.hour == 23 && r.minute == 59 && r.second == 59 && r.microsecond == 0
    ensures NextDay(r).None? || NextDay(r).value.day == 1
  {
    DateTime(now.year, now.month, DaysInMonth(now.year, now.month), 23, 59, 59, 0)
  }

  /** The length of the suggestion window's tail: the close date is this
      many days before the end of the month. */
  const CloseLeadDays := 7

  /** The moment suggestions close for the month of `now`: the end of the
      month minus seven days. It never leaves the month. */
  function SuggestionsCloseDate(now: DateTime): (r: DateTime)
    requires ValidDateTime(now)
    ensures ValidDateTime(r)
    ensures r.year == now.year && r.month == now.month
    ensures r.day == DaysInMonth(now.year, now.month) - CloseLeadDays
    ensures 21 <= r.day <= 24
    ensures r.hour == 23 && r.minute == 59 && r.second == 59 && r.microsecond == 0
  {
    var end := EndOfMonth(now);
    SubDaysWithinMonth(end, CloseLeadDays);
    SubDays(end, CloseLeadDays).value
  }

  /** In February suggestions close on the 21st, or on the 22nd in a leap year. */
  lemma FebruaryCloseDay(now: DateTime)
    requires ValidDateTime(now) && now.month == 2
    ensures SuggestionsCloseDate(now).day == (if IsLeap(now.year) then 22 else 21)
  {
  }

  /** The close date and the end of the month are seven days apart. */
  lemma CloseDateSevenDaysBeforeEnd(now: DateTime)
    requires ValidDateTime(now)
    ensures AddDays(SuggestionsCloseDate(now), CloseLeadDays) == Some(EndOfMonth(now))
  {
    var c := SuggestionsCloseDate(now);
    AddDaysWithinMonth(c, CloseLeadDays);
  }

  /** Within one month, adding days only raises the day of the month. */
  lemma {:induction false} AddDaysWithinMonth(d: DateTime, n: nat)
    requires ValidDateTime(d)
    requires d.day + n <= DaysInMonth(d.year, d.month)
    ensures AddDays(d, n) == Some(d.(day := d.day + n))
    decreases n
  {
    if n > 0 {
      AddDaysWithinMonth(d.(day := d.day + 1), n - 1);
    }
  }
}

=== FILE: cycle.dfy ===
/** The state of the monthly cycle and the four scheduled transitions of the
    application module: opening suggestions on the 1st, closing them into a
    poll, closing the poll into the winner ledger, and clearing the month's
    data. Every transition is one atomic step from a state to a state; the
    clock reading `now` is a parameter. */
module Cycle {
  import opened Wrappers
  import opened Calendar
  import opened Models
  import opened Ranking
  import opened Scheduler

  /** The two phase flags, the three tables and the pending one-shot jobs. */
  datatype State = State(
    suggestionsOpen: bool,
    pollOpen: bool,
    suggestions: seq<Suggestion>,
    poll: seq<PollEntry>,
    winners: seq<Winner>,
    jobs: Jobs)

  /** How long the poll stays open: `timedelta(days=7)`. */
  const PollDays := 7

  /** The poll rows written for `top` into an emptied table, whose row ids
      therefore start again at 1. */
  function FreshPoll(top: seq<Suggestion>, now: DateTime): (poll: seq<PollEntry>)
    ensures |poll| == |top|
    ensures forall i :: 0 <= i < |poll| ==>
      && poll[i].suggestionId == top[i].id && poll[i].title == top[i].title
      && poll[i].votes == 0 && poll[i].createdAt == now
    ensures forall i :: 0 <= i < |poll| ==> poll[i].id == NextRowId(PollIds(poll[..i]))
  {
    var poll := seq(|top|, i requires 0 <= i < |top| => PollEntry(i + 1, top[i].id, top[i].title, 0, now));
    InsertedRowIds(poll);
    poll
  }

  /** Rows numbered 1, 2, 3, ... are the rows SQLite numbers when they are
      inserted one at a time into an empty table. */
  lemma InsertedRowIds(poll: seq<PollEntry>)
    requires forall i :: 0 <= i < |poll| ==> poll[i].id == i + 1
    ensures forall i :: 0 <= i < |poll| ==> poll[i].id == NextRowId(PollIds(poll[..i]))
  {
    forall i | 0 <= i < |poll|
      ensures poll[i].id == NextRowId(PollIds(poll[..i]))
    {
      var ids := PollIds(poll[..i]);
      if i > 0 {
        assert ids[i - 1] == i;
        var j :| 0 <= j < |ids| && ids[j] == NextRowId(ids) - 1;
        assert ids[j] == j + 1;
      }
    }
  }

  /** Ids that SQLite assigned one insertion at a time are distinct. */
  lemma InsertedIdsDistinct(poll: seq<PollEntry>)
    requires forall i :: 0 <= i < |poll| ==> poll[i].id == NextRowId(PollIds(poll[..i]))
    ensures Distinct(PollIds(poll))
  {
    forall i, j | 0 <= i < j < |poll|
      ensures PollIds(poll)[i] != PollIds(poll)[j]
    {
      assert PollIds(poll[..j])[i] == poll[i].id;
    }
  }

  /** `poll` is a poll built from the suggestions: min(3, n) entries with no
      votes and distinct row ids, each copying the id and title of a distinct
      suggestion, and no suggestion left out has more votes than one taken. */
  predicate PollDrawnFrom(poll: seq<PollEntry>, sugs: seq<Suggestion>): (b: bool)
    ensures b ==> |poll| <= PollSize && |poll| <= |sugs|
    ensures b && |sugs| >= PollSize ==> |poll| == PollSize
    ensures b ==> forall e :: e in poll ==> e.votes == 0
  {
    && |poll| == Min(PollSize, |sugs|)
    && (forall i :: 0 <= i < |poll| ==> poll[i].votes == 0)
    && Distinct(PollIds(poll))
    && Distinct(SourceIds(poll))
    && (forall i :: 0 <= i < |poll| ==> (poll[i].suggestionId, poll[i].title) in Catalog(sugs))
    && (forall i, j, k ::
          0 <= i < |poll| && 0 <= j < |sugs| && 0 <= k < |sugs| &&
          sugs[j].id == poll[i].suggestionId && sugs[k].id !in SourceIds(poll)
          ==> sugs[j].votes >= sugs[k].votes)
  }

  /** The top-3 query turned into poll rows satisfies `PollDrawnFrom`. */
  lemma FreshPollDrawn(sugs: seq<Suggestion>, now: DateTime)
    requires Distinct(SuggestionIds(sugs))
    ensures PollDrawnFrom(FreshPoll(TopSuggestions(sugs, PollSize), now), sugs)
  {
    var top := TopSuggestions(sugs, PollSize);
    var p := FreshPoll(top, now);
    InsertedIdsDistinct(p);
    FreshPollSources(sugs, top, now);
    FreshPollDominates(sugs, top, now);
  }

  /** The rows copy distinct suggestions. */
  lemma FreshPollSources(sugs: seq<Suggestion>, top: seq<Suggestion>, now: DateTime)
    requires Distinct(SuggestionIds(sugs)) && multiset(top) <= multiset(sugs)
    ensures Distinct(SourceIds(FreshPoll(top, now)))
    ensures forall i :: 0 <= i < |top| ==>
      (FreshPoll(top, now)[i].suggestionId, FreshPoll(top, now)[i].title) in Catalog(sugs)
  {
    var p := FreshPoll(top, now);
    SubMultisetDistinctIds(top, sugs);
    forall i, j | 0 <= i < j < |p| ensures SourceIds(p)[i] != SourceIds(p)[j] {
      assert SuggestionIds(top)[i] != SuggestionIds(top)[j];
    }
    forall i | 0 <= i < |p|
      ensures (p[i].suggestionId, p[i].title) in Catalog(sugs)
    {
      assert top[i] in multiset(sugs);
      var j :| 0 <= j < |sugs| && sugs[j] == top[i];
      assert Catalog(sugs)[j] == (p[i].suggestionId, p[i].title);
    }
  }

  /** No suggestion left out of the poll has more votes than one taken in. */
  lemma FreshPollDominates(sugs: seq<Suggestion>, top: seq<Suggestion>, now: DateTime)
    requires Distinct(SuggestionIds(sugs))
    requires multiset(top) <= multiset(sugs)
    requires forall x, y :: x in top && y in multiset(sugs) - multiset(top) ==> x.votes >= y.votes
    ensures forall i, j, k ::
      0 <= i < |top| && 0 <= j < |sugs| && 0 <= k < |sugs| &&
      sugs[j].id == FreshPoll(top, now)[i].suggestionId && sugs[k].id !in SourceIds(FreshPoll(top, now))
      ==> sugs[j].votes >= sugs[k].votes
  {
    var p := FreshPoll(top, now);
    forall i, j, k |
      0 <= i < |p| && 0 <= j < |sugs| && 0 <= k < |sugs| &&
      sugs[j].id == p[i].suggestionId && sugs[k].id !in SourceIds(p)
      ensures sugs[j].votes >= sugs[k].votes
    {
      SameIdSameSuggestion(sugs, top[i], j);
      forall m | 0 <= m < |top| ensures top[m] != sugs[k] {
        assert SourceIds(p)[m] == top[m].id;
      }
      assert multiset(top)[sugs[k]] == 0;
      assert sugs[k] in multiset(sugs) - multiset(top);
    }
  }

  /** With distinct ids, a suggestion is found by its id. */
  lemma SameIdSameSuggestion(sugs: seq<Suggestion>, x: Suggestion, j: nat)
    requires Distinct(SuggestionIds(sugs)) && x in multiset(sugs)
    requires j < |sugs| && sugs[j].id == x.id
    ensures sugs[j] == x
  {
    var q :| 0 <= q < |sugs| && sugs[q] == x;
    assert SuggestionIds(sugs)[q] == SuggestionIds(sugs)[j];
  }

  lemma FreshPollDrawnWhenDistinct(sugs: seq<Suggestion>, now: DateTime)
    ensures Distinct(SuggestionIds(sugs)) ==> PollDrawnFrom(FreshPoll(TopSuggestions(sugs, PollSize), now), sugs)
  {
    if Distinct(SuggestionIds(sugs)) {
      FreshPollDrawn(sugs, now);
    }
  }

  /** Both close-suggestions paths: the flags flip to (closed, poll open) and
      the poll is rebuilt from the top suggestions. Nothing else changes. */
  function StartPoll(s: State, now: DateTime): (r: State)
    ensures !r.suggestionsOpen && r.pollOpen
    ensures r.suggestions == s.suggestions && r.winners == s.winners && r.jobs == s.jobs
    ensures Distinct(SuggestionIds(s.suggestions)) ==> PollDrawnFrom(r.poll, s.suggestions)
  {
    FreshPollDrawnWhenDistinct(s.suggestions, now);
    s.(suggestionsOpen := false, pollOpen := true,
       poll := FreshPoll(TopSuggestions(s.suggestions, PollSize), now))
  }

  /** `open_suggestions`: whatever the previous phase, suggestions open and the
      poll closes, and `close_suggestions_task` is (re)registered for the end
      of the month minus seven days. The tables are untouched. */
  function OpenSuggestions(s: State, now: DateTime): (r: State)
    requires ValidDateTime(now)
    ensures r.suggestionsOpen && !r.pollOpen
    ensures r.suggestions == s.suggestions && r.poll == s.poll && r.winners == s.winners
    ensures r.jobs.Keys == s.jobs.Keys + {CloseSuggestionsJobId}
    ensures r.jobs[CloseSuggestionsJobId] == DateJob(SuggestionsCloseDate(now), CloseSuggestionsTask)
    ensures forall k :: k in s.jobs && k != CloseSuggestionsJobId ==> r.jobs[k] == s.jobs[k]
  {
    var closeAt := SuggestionsCloseDate(now);
    s.(suggestionsOpen := true, pollOpen := false,
       jobs := AddJob(s.jobs, CloseSuggestionsJobId, DateJob(closeAt, CloseSuggestionsTask)))
  }

  /** The scheduled `close_suggestions`. It first computes `now + 7 days`;
      when that overflows the calendar the exception is raised before
      anything changes. Otherwise the flags flip unconditionally, the poll
      is rebuilt from the top three suggestions, and `close_poll_task` is
      (re)registered for exactly seven days after `now`, at the same time of
      day. */
  function CloseSuggestions(s: State, now: DateTime): (r: State)
    requires ValidDateTime(now)
    ensures AddDays(now, PollDays).None? <==> now.year == MaxYear && now.month == 12 && now.day > 24
    ensures AddDays(now, PollDays).None? ==> r == s
    ensures AddDays(now, PollDays).Some? ==>
      && !r.suggestionsOpen && r.pollOpen
      && r.suggestions == s.suggestions && r.winners == s.winners
      && (Distinct(SuggestionIds(s.suggestions)) ==> PollDrawnFrom(r.poll, s.suggestions))
      && r.jobs.Keys == s.jobs.Keys + {ClosePollJobId}
      && r.jobs[ClosePollJobId].task == ClosePollTask
      && ValidDateTime(r.jobs[ClosePollJobId].runDate)
      && SubDays(r.jobs[ClosePollJobId].runDate, PollDays) == Some(now)
      && SameTimeOfDay(r.jobs[ClosePollJobId].runDate, now)
      && (forall k :: k in s.jobs && k != ClosePollJobId ==> r.jobs[k] == s.jobs[k])
  {
    AddDaysNone(now, PollDays);
    match AddDays(now, PollDays)
    case None => s
    case Some(pollCloseAt) =>
      AddThenSubDays(now, PollDays);
      var polling := StartPoll(s, now);
      polling.(jobs := AddJob(polling.jobs, ClosePollJobId, DateJob(pollCloseAt, ClosePollTask)))
  }

  /** `PollSuggestion.query.order_by(votes.desc()).first()`: an entry with the
      most votes, or `None` for an empty poll. */
  function PollLeader(poll: seq<PollEntry>): (r: Option<PollEntry>)
    ensures r.None? <==> poll == []
    ensures r.Some? ==> r.value in poll && forall e :: e in poll ==> e.votes <= r.value.votes
  {
    if poll == [] then None
    else
      assert poll == [poll[0]] + poll[1..];
      match PollLeader(poll[1..])
      case None => Some(poll[0])
      case Some(e) => if e.votes > poll[0].votes then Some(e) else Some(poll[0])
  }

  /** `close_poll`: records the title of an entry with the most votes in the
      winner ledger unless a winner with exactly that title exists. Only the
      ledger can change, and only by one appended row. */
  function ClosePoll(s: State, now: DateTime): (r: State)
    ensures r.(winners := s.winners) == s
    ensures s.poll == [] ==> r == s
    ensures s.poll != [] ==>
      exists e :: e in s.poll && (forall f :: f in s.poll ==> f.votes <= e.votes) && e.title in WinnerTitles(r.winners)
    ensures (forall e :: e in s.poll && (forall f :: f in s.poll ==> f.votes <= e.votes) ==> e.title in WinnerTitles(s.winners))
            ==> r == s
    ensures r.winners == s.winners || (
      && |r.winners| == |s.winners| + 1
      && r.winners[..|s.winners|] == s.winners
      && r.winners[|s.winners|].title !in WinnerTitles(s.winners)
      && r.winners[|s.winners|].id !in WinnerIds(s.winners)
      && r.winners[|s.winners|].wonAt == now)
    ensures r.winners != s.winners ==>
      exists e :: e in s.poll && (forall f :: f in s.poll ==> f.votes <= e.votes) && r.winners[|s.winners|].title == e.title
  {
    match PollLeader(s.poll)
    case None => s
    case Some(e) =>
      if e.title in WinnerTitles(s.winners) then s
      else
        var w := Winner(NextRowId(WinnerIds(s.winners)), e.title, now);
        assert WinnerTitles(s.winners + [w])[|s.winners|] == e.title;
        assert (s.winners + [w])[..|s.winners|] == s.winners;
        s.(winners := s.winners + [w])
  }

  /** `clear_votes_and_suggestions`: both the suggestion and the poll tables
      become empty; the winners, the flags and the jobs stay. */
  function ClearVotesAndSuggestions(s: State): (r: State)
    ensures r.suggestions == [] && r.poll == []
    ensures r.(suggestions := s.suggestions, poll := s.poll) == s
  {
    s.(suggestions := [], poll := [])
  }

  /** `schedule_close_suggestions`, run at start-up: (re)registers
      `close_suggestions_task` for the current month exactly as
      `open_suggestions` would, without touching the flags or the tables. */
  function ScheduleCloseSuggestions(s: State, now: DateTime): (r: State)
    requires ValidDateTime(now)
    ensures r.(jobs := s.jobs) == s
    ensures r.jobs == OpenSuggestions(s, now).jobs
  {
    s.(jobs := AddJob(s.jobs, CloseSuggestionsJobId, DateJob(SuggestionsCloseDate(now), CloseSuggestionsTask)))
  }

  /** A process restart. The tables live in the database and survive; the
      flags start again from the values the state module is loaded with
      (given here, as that module is not part of this model); the
      scheduler keeps its jobs in memory, so it starts empty, and start-up
      registers only `close_suggestions_task`. A pending `close_poll_task`
      is therefore lost, and that month's poll is never closed by the
      scheduler. */
  function Restart(s: State, suggestionsOpen: bool, pollOpen: bool, now: DateTime): (r: State)
    requires ValidDateTime(now)
    ensures r.suggestions == s.suggestions && r.poll == s.poll && r.winners == s.winners
    ensures r.suggestionsOpen == suggestionsOpen && r.pollOpen == pollOpen
    ensures r.jobs.Keys == {CloseSuggestionsJobId}
    ensures ClosePollJobId !in r.jobs
    ensures r.jobs[CloseSuggestionsJobId] == DateJob(SuggestionsCloseDate(now), CloseSuggestionsTask)
  {
    ScheduleCloseSuggestions(State(suggestionsOpen, pollOpen, s.suggestions, s.poll, s.winners, map[]), now)
  }

  /** The scheduler firing `close_suggestions_task`: APScheduler removes a
      `'date'` job once it is due, then runs `close_suggestions`. */
  function FireCloseSuggestions(s: State, now: DateTime): (r: State)
    requires ValidDateTime(now)
    ensures CloseSuggestionsJobId !in r.jobs
    ensures r.suggestions == s.suggestions && r.winners == s.winners
    ensures AddDays(now, PollDays).Some? ==>
      !r.suggestionsOpen && r.pollOpen && ClosePollJobId in r.jobs && r.jobs[ClosePollJobId].task == ClosePollTask
    ensures forall k :: k in s.jobs && k != CloseSuggestionsJobId && k != ClosePollJobId ==>
      k in r.jobs && r.jobs[k] == s.jobs[k]
  {
    CloseSuggestions(s.(jobs := s.jobs - {CloseSuggestionsJobId}), now)
  }

  /** The scheduler firing `close_poll_task`: the job is removed once due,
      then `close_poll` runs, so no close of the poll stays pending. */
  function FireClosePoll(s: State, now: DateTime): (r: State)
    ensures ClosePollJobId !in r.jobs
    ensures r.jobs == s.jobs - {ClosePollJobId}
    ensures r.(jobs := s.jobs) == ClosePoll(s, now)
  {
    ClosePoll(s.(jobs := s.jobs - {ClosePollJobId}), now)
  }

  /** Opening suggestions twice at the same moment is opening them once. */
  lemma OpenSuggestionsIdempotent(s: State, now: DateTime)
    requires ValidDateTime(now)
    ensures OpenSuggestions(OpenSuggestions(s, now), now) == OpenSuggestions(s, now)
  {
  }

  /** Closing the poll twice, at any two moments, is closing it once. */
  lemma ClosePollIdempotent(s: State, t1: DateTime, t2: DateTime)
    ensures ClosePoll(ClosePoll(s, t1), t2) == ClosePoll(s, t1)
  {
    var s1 := ClosePoll(s, t1);
    if s.poll != [] {
      var e := PollLeader(s.poll).value;
      if e.title !in WinnerTitles(s.winners) {
        assert WinnerTitles(s1.winners)[|s.winners|] == e.title;
      }
    }
  }
}

=== FILE: lifecycle.dfy ===
/** Any interleaving of requests and scheduled transitions, and the table
    invariants that every such interleaving keeps: suggestion ids distinct
    and titles acceptable and distinct up to case, at most three poll rows
    each copying a distinct stored suggestion, and winner titles distinct
    and within the 100-character column. The gate each request reads is part
    of the request, so the invariants hold whatever the handlers read. */
module Lifecycle {
  import opened Wrappers
  import opened Calendar
  import opened Models
  import opened Ranking
  import opened TitleMatch
  import opened Cycle
  import opened Routes
  import opened Scheduler

  /** The suggestion table's constraints. */
  predicate SuggestionsValid(sugs: seq<Suggestion>)
  {
    && Distinct(SuggestionIds(sugs))
    && (forall i :: 0 <= i < |sugs| ==> AcceptableTitle(sugs[i].title))
    && (forall i, j :: 0 <= i < j < |sugs| ==> !FoldEq(sugs[i].title, sugs[j].title))
  }

  /** The poll table's constraints: at most three rows, distinct row ids, and
      each row a snapshot of a distinct stored suggestion. */
  predicate PollValid(poll: seq<PollEntry>, sugs: seq<Suggestion>)
  {
    && |poll| <= PollSize
    && Distinct(PollIds(poll))
    && Distinct(SourceIds(poll))
    && (forall i :: 0 <= i < |poll| ==> (poll[i].suggestionId, poll[i].title) in Catalog(sugs))
  }

  /** The winner table's constraints: distinct ids, unique titles that fit
      `String(100)`. */
  predicate WinnersValid(winners: seq<Winner>)
  {
    && Distinct(WinnerIds(winners))
    && Distinct(WinnerTitles(winners))
    && (forall i :: 0 <= i < |winners| ==> AcceptableTitle(winners[i].title) && |winners[i].title| <= WinnerTitleColumnLength)
  }

  predicate Valid(s: State)
  {
    SuggestionsValid(s.suggestions) && PollValid(s.poll, s.suggestions) && WinnersValid(s.winners)
  }

  /** In a valid state every stored title fits its column: suggestion and
      poll titles within `String(255)`, winner titles within `String(100)`. */
  lemma TitlesFitColumns(s: State)
    requires Valid(s)
    ensures forall i :: 0 <= i < |s.suggestions| ==> 0 < |s.suggestions[i].title| <= TitleColumnLength
    ensures forall i :: 0 <= i < |s.poll| ==> 0 < |s.poll[i].title| <= TitleColumnLength
    ensures forall i :: 0 <= i < |s.winners| ==> 0 < |s.winners[i].title| <= WinnerTitleColumnLength
  {
    forall i | 0 <= i < |s.poll| ensures 0 < |s.poll[i].title| <= TitleColumnLength {
      PollTitleAcceptable(s.poll, s.suggestions, s.poll[i]);
    }
  }

  /** One request or one scheduled job. */
  datatype Op =
    | SetStateOp(req: StateRequest, shown: (bool, bool))
    | AddSuggestionOp(gate: bool, title: Option<string>, at: DateTime)
    | UpvoteOp(gate: bool, id: nat)
    | CloseSuggestionsRouteOp(gate: bool, at: DateTime)
    | VotePollOp(gate: bool, id: nat)
    | OpenSuggestionsOp(at: DateTime)
    | CloseSuggestionsOp(at: DateTime)
    | ClosePollOp(at: DateTime)
    | ClearOp
    | ScheduleCloseSuggestionsOp(at: DateTime)
    | RestartOp(suggestionsOpen: bool, pollOpen: bool, at: DateTime)

  /** The clock readings the calendar arithmetic needs are real date-times. */
  predicate OpClockValid(op: Op)
  {
    match op
    case OpenSuggestionsOp(at) => ValidDateTime(at)
    case CloseSuggestionsOp(at) => ValidDateTime(at)
    case ScheduleCloseSuggestionsOp(at) => ValidDateTime(at)
    case RestartOp(_, _, at) => ValidDateTime(at)
    case _ => true
  }

  function Step(s: State, op: Op): (r: State)
    requires OpClockValid(op)
  {
    match op
    case SetStateOp(req, shown) => SetState(s, req, shown).state
    case AddSuggestionOp(gate, title, at) => AddSuggestion(s, gate, title, at).state
    case UpvoteOp(gate, id) => Upvote(s, gate, id).state
    case CloseSuggestionsRouteOp(gate, at) => CloseSuggestionsRoute(s, gate, at).state
    case VotePollOp(gate, id) => VotePoll(s, gate, id).state
    case OpenSuggestionsOp(at) => OpenSuggestions(s, at)
    case CloseSuggestionsOp(at) => FireCloseSuggestions(s, at)
    case ClosePollOp(at) => FireClosePoll(s, at)
    case ClearOp => ClearVotesAndSuggestions(s)
    case ScheduleCloseSuggestionsOp(at) => ScheduleCloseSuggestions(s, at)
    case RestartOp(so, po, at) => Restart(s, so, po, at)
  }

  function Run(s: State, ops: seq<Op>): (r: State)
    requires forall i :: 0 <= i < |ops| ==> OpClockValid(ops[i])
    decreases |ops|
  {
    if ops == [] then s else Run(Step(s, ops[0]), ops[1..])
  }

  /** A fresh deployment: every table empty and no job pending, with
      whatever flag values the process starts with. */
  function Initial(suggestionsOpen: bool, pollOpen: bool): (s: State)
    ensures Valid(s)
    ensures s.suggestions == [] && s.poll == [] && s.winners == []
  {
    State(suggestionsOpen, pollOpen, [], [], [], map[])
  }

  /** The invariants survive any sequence of requests and jobs. */
  lemma {:induction false} RunPreservesValid(s: State, ops: seq<Op>)
    requires Valid(s)
    requires forall i :: 0 <= i < |ops| ==> OpClockValid(ops[i])
    ensures Valid(Run(s, ops))
    decreases |ops|
  {
    if ops != [] {
      StepPreservesValid(s, ops[0]);
      RunPreservesValid(Step(s, ops[0]), ops[1..]);
    }
  }

  /** Winner titles stay pairwise distinct from any valid state. */
  lemma WinnerTitlesStayDistinct(s: State, ops: seq<Op>)
    requires Valid(s)
    requires forall i :: 0 <= i < |ops| ==> OpClockValid(ops[i])
    ensures Distinct(WinnerTitles(Run(s, ops).winners))
  {
    RunPreservesValid(s, ops);
  }

  lemma StepPreservesValid(s: State, op: Op)
    requires Valid(s) && OpClockValid(op)
    ensures Valid(Step(s, op))
  {
    match op
    case SetStateOp(req, shown) =>
    case AddSuggestionOp(gate, title, at) => AddPreservesValid(s, gate, title, at);
    case UpvoteOp(gate, id) => UpvotePreservesValid(s, gate, id);
    case CloseSuggestionsRouteOp(gate, at) =>
    case VotePollOp(gate, id) => VotePollPreservesValid(s, gate, id);
    case OpenSuggestionsOp(at) =>
    case CloseSuggestionsOp(at) =>
    case ClosePollOp(at) => ClosePollPreservesValid(s.(jobs := s.jobs - {ClosePollJobId}), at);
    case ClearOp =>
    case ScheduleCloseSuggestionsOp(at) =>
    case RestartOp(so, po, at) =>
  }

  lemma AddPreservesValid(s: State, gate: bool, title: Option<string>, at: DateTime)
    requires Valid(s)
    ensures Valid(AddSuggestion(s, gate, title, at).state)
  {
    var r := AddSuggestion(s, gate, title, at);
    if r.status == Created {
      var x := Suggestion(r.body.value, title.value, 0, at);
      var sugs := s.suggestions + [x];
      NoFoldDuplicate(s.suggestions, title.value);
      assert SuggestionIds(sugs) == SuggestionIds(s.suggestions) + [x.id];
      assert Catalog(sugs) == Catalog(s.suggestions) + [(x.id, x.title)];
      forall i | 0 <= i < |s.poll|
        ensures (s.poll[i].suggestionId, s.poll[i].title) in Catalog(sugs)
      {
        assert (s.poll[i].suggestionId, s.poll[i].title) in Catalog(s.suggestions);
      }
    }
  }

  lemma UpvotePreservesValid(s: State, gate: bool, id: nat)
    requires Valid(s)
    ensures Valid(Upvote(s, gate, id).state)
  {
    if gate && id in SuggestionIds(s.suggestions) {
      UpvoteStep(s, id, 0);
      var sugs := Upvote(s, gate, id).state.suggestions;
      forall i | 0 <= i < |sugs| ensures sugs[i].title == s.suggestions[i].title {
        assert Catalog(sugs)[i] == Catalog(s.suggestions)[i];
      }
    }
  }

  lemma VotePollPreservesValid(s: State, gate: bool, id: nat)
    requires Valid(s)
    ensures Valid(VotePoll(s, gate, id).state)
  {
    var poll := VotePoll(s, gate, id).state.poll;
    assert PollIds(poll) == PollIds(s.poll);
    assert SourceIds(poll) == SourceIds(s.poll);
  }

  lemma ClosePollPreservesValid(s: State, at: DateTime)
    requires Valid(s)
    ensures Valid(ClosePoll(s, at))
  {
    if s.poll != [] {
      var e := PollLeader(s.poll).value;
      if e.title !in WinnerTitles(s.winners) {
        var w := Winner(NextRowId(WinnerIds(s.winners)), e.title, at);
        assert ClosePoll(s, at).winners == s.winners + [w];
        PollTitleAcceptable(s.poll, s.suggestions, e);
        WinnerAppendValid(s.winners, w);
      }
    }
  }

  /** A poll row copies the title of a stored suggestion, so its title is
      acceptable too. */
  lemma PollTitleAcceptable(poll: seq<PollEntry>, sugs: seq<Suggestion>, e: PollEntry)
    requires SuggestionsValid(sugs) && PollValid(poll, sugs) && e in poll
    ensures AcceptableTitle(e.title)
  {
    var i :| 0 <= i < |poll| && poll[i] == e;
    var j :| 0 <= j < |sugs| && Catalog(sugs)[j] == (e.suggestionId, e.title);
  }

  /** Appending a winner with a fresh id and a new acceptable title keeps the
      ledger valid. */
  lemma WinnerAppendValid(winners: seq<Winner>, w: Winner)
    requires WinnersValid(winners)
    requires w.id !in WinnerIds(winners) && w.title !in WinnerTitles(winners) && AcceptableTitle(w.title)
    ensures WinnersValid(winners + [w])
  {
    assert WinnerIds(winners + [w]) == WinnerIds(winners) + [w.id];
    assert WinnerTitles(winners + [w]) == WinnerTitles(winners) + [w.title];
  }
}

=== FILE: models.dfy ===
/** The three tables of the voting cycle, their column bounds, and the row-id
    rule of SQLite's `INTEGER PRIMARY KEY` (the largest id in the table plus
    one, or 1 when the table is empty). */
module Models {
  import opened Wrappers
  import opened Calendar

  /** `Suggestion.title` and `PollSuggestion.title` are `String(255)`. */
  const TitleColumnLength := 255
  /** `Winner.title` is `String(100)`. */
  const WinnerTitleColumnLength := 100
  /** The longest title POST /suggestions accepts. */
  const MaxTitleLength := 100

  /** A row of `suggestion`; `votes` starts at the column default 0. */
  datatype Suggestion = Suggestion(id: nat, title: string, votes: nat, createdAt: DateTime)

  /** A row of `poll_suggestion`: a snapshot of a suggestion's id and title
      with a vote count of its own. */
  datatype PollEntry = PollEntry(id: nat, suggestionId: nat, title: string, votes: nat, createdAt: DateTime)

  /** A row of `winner`. */
  datatype Winner = Winner(id: nat, title: string, wonAt: DateTime)

  /** The new row's id: one more than every id present, 1 for an empty table. */
  function NextRowId(ids: seq<nat>): (r: nat)
    ensures r >= 1
    ensures forall i :: 0 <= i < |ids| ==> ids[i] < r
    ensures ids == [] ==> r == 1
    ensures ids != [] ==> r - 1 in ids
  {
    if ids == [] then 1
    else
      var rest := NextRowId(ids[1..]);
      if ids[0] + 1 >= rest then ids[0] + 1 else rest
  }

  /** The first position of `x` in `s`: how `query.get(id)` finds a row by
      primary key. */
  function IndexOf<T(==)>(s: seq<T>, x: T): (r: Option<nat>)
    ensures r.None? <==> x !in s
    ensures r.Some? ==> r.value < |s| && s[r.value] == x && x !in s[..r.value]
  {
    if s == [] then None
    else if s[0] == x then Some(0)
    else match IndexOf(s[1..], x)
      case None => None
      case Some(i) =>
        assert s[..i + 1] == [s[0]] + s[1..][..i];
        Some(i + 1)
  }

  predicate Distinct<T(==)>(s: seq<T>)
  {
    forall i, j :: 0 <= i < j < |s| ==> s[i] != s[j]
  }

  function SuggestionIds(s: seq<Suggestion>): (r: seq<nat>)
    ensures |r| == |s| && forall i :: 0 <= i < |s| ==> r[i] == s[i].id
  {
    seq(|s|, i requires 0 <= i < |s| => s[i].id)
  }

  function PollIds(p: seq<PollEntry>): (r: seq<nat>)
    ensures |r| == |p| && forall i :: 0 <= i < |p| ==> r[i] == p[i].id
  {
    seq(|p|, i requires 0 <= i < |p| => p[i].id)
  }

  /** The `suggestion_id` column of the poll. */
  function SourceIds(p: seq<PollEntry>): (r: seq<nat>)
    ensures |r| == |p| && forall i :: 0 <= i < |p| ==> r[i] == p[i].suggestionId
  {
    seq(|p|, i requires 0 <= i < |p| => p[i].suggestionId)
  }

  function WinnerIds(w: seq<Winner>): (r: seq<nat>)
    ensures |r| == |w| && forall i :: 0 <= i < |w| ==> r[i] == w[i].id
  {
    seq(|w|, i requires 0 <= i < |w| => w[i].id)
  }

  function WinnerTitles(w: seq<Winner>): (r: seq<string>)
    ensures |r| == |w| && forall i :: 0 <= i < |w| ==> r[i] == w[i].title
  {
    seq(|w|, i requires 0 <= i < |w| => w[i].title)
  }

  /** The (id, title) pairs of the suggestions: everything about a suggestion
      except its votes and creation time, which voting does not touch. */
  function Catalog(s: seq<Suggestion>): (r: seq<(nat, string)>)
    ensures |r| == |s| && forall i :: 0 <= i < |s| ==> r[i] == (s[i].id, s[i].title)
  {
    seq(|s|, i requires 0 <= i < |s| => (s[i].id, s[i].title))
  }

  /** A title the submission route would store: non-empty, at most 100
      characters (and so within the 255-character column). */
  predicate AcceptableTitle(t: string)
  {
    0 < |t| <= MaxTitleLength
  }

  /** A sequence in which two positions hold the same value counts it twice. */
  lemma RepeatedCountsTwice<T>(a: seq<T>, i: nat, j: nat)
    requires i < j < |a| && a[i] == a[j]
    ensures multiset(a)[a[i]] >= 2
  {
    assert a == a[..j] + [a[j]] + a[j + 1..];
    assert a[i] in a[..j];
  }

  /** With distinct ids, each suggestion occurs once. */
  lemma {:induction false} DistinctIdsCountOnce(b: seq<Suggestion>, x: Suggestion)
    requires Distinct(SuggestionIds(b)) && x in b
    ensures multiset(b)[x] == 1
  {
    assert b == [b[0]] + b[1..];
    assert Distinct(SuggestionIds(b[1..])) by {
      forall i, j | 0 <= i < j < |b[1..]|
        ensures SuggestionIds(b[1..])[i] != SuggestionIds(b[1..])[j]
      {
        assert SuggestionIds(b)[i + 1] != SuggestionIds(b)[j + 1];
      }
    }
    if b[0] == x {
      forall k | 0 <= k < |b[1..]|
        ensures b[1..][k] != x
      {
        assert SuggestionIds(b)[0] != SuggestionIds(b)[k + 1];
      }
      assert multiset(b[1..])[x] == 0;
    } else {
      DistinctIdsCountOnce(b[1..], x);
    }
  }

  /** Any sub-multiset of suggestions with distinct ids has distinct ids. */
  lemma SubMultisetDistinctIds(a: seq<Suggestion>, b: seq<Suggestion>)
    requires multiset(a) <= multiset(b) && Distinct(SuggestionIds(b))
    ensures Distinct(SuggestionIds(a))
  {
    forall i, j | 0 <= i < j < |a|
      ensures SuggestionIds(a)[i] != SuggestionIds(a)[j]
    {
      assert a[i] in multiset(b) && a[j] in multiset(b);
      var p :| 0 <= p < |b| && b[p] == a[i];
      var q :| 0 <= q < |b| && b[q] == a[j];
      if p < q {
        assert SuggestionIds(b)[p] != SuggestionIds(b)[q];
      } else if q < p {
        assert SuggestionIds(b)[q] != SuggestionIds(b)[p];
      } else {
        RepeatedCountsTwice(a, i, j);
        DistinctIdsCountOnce(b, a[i]);
        assert false;
      }
    }
  }
}

=== FILE: ranking.dfy ===
/** `Suggestion.query.order_by(Suggestion.votes.desc())`, and the same query
    with `.limit(n)`. SQL leaves the order of equal vote counts open; this
    model keeps insertion order among ties, and every property below is
    stated so that it holds whatever order the database picks for ties. */
module Ranking {
  import opened Wrappers
  import opened Models

  /** How many suggestions go into a poll. */
  const PollSize := 3

  /** The number of rows `.limit(k)` returns from a table of `n` rows is
      `Min(k, n)`. */
  function Min(a: int, b: int): (m: int)
    ensures m <= a && m <= b
    ensures m == a || m == b
  {
    if a <= b then a else b
  }

  predicate SortedByVotes(s: seq<Suggestion>)
  {
    forall i, j :: 0 <= i < j < |s| ==> s[i].votes >= s[j].votes
  }

  /** Places `x` before the first entry that has no more votes than it. */
  function Insert(x: Suggestion, s: seq<Suggestion>): (r: seq<Suggestion>)
    requires SortedByVotes(s)
    ensures SortedByVotes(r)
    ensures multiset(r) == multiset(s) + multiset{x}
    decreases |s|
  {
    if s == [] || s[0].votes <= x.votes then [x] + s
    else
      var tail := Insert(x, s[1..]);
      assert s == [s[0]] + s[1..];
      forall j | 0 <= j < |tail|
        ensures tail[j].votes <= s[0].votes
      {
        assert tail[j] in multiset(tail);
        if tail[j] != x {
          assert tail[j] in multiset(s[1..]);
        }
      }
      [s[0]] + tail
  }

  /** The suggestions in descending order of votes. */
  function SortByVotes(s: seq<Suggestion>): (r: seq<Suggestion>)
    ensures SortedByVotes(r)
    ensures multiset(r) == multiset(s)
  {
    if s == [] then []
    else
      assert s == [s[0]] + s[1..];
      Insert(s[0], SortByVotes(s[1..]))
  }

  /** `top` is a choice of min(k, |all|) of the suggestions, none of which has
      fewer votes than any suggestion left out. */
  predicate IsTopSelection(top: seq<Suggestion>, all: seq<Suggestion>, k: nat)
  {
    && |top| == Min(k, |all|)
    && multiset(top) <= multiset(all)
    && forall x, y :: x in top && y in multiset(all) - multiset(top) ==> x.votes >= y.votes
  }

  /** The result of `.order_by(votes.desc()).limit(k)`: a top-k selection,
      most votes first. */
  function TopSuggestions(all: seq<Suggestion>, k: nat): (top: seq<Suggestion>)
    ensures IsTopSelection(top, all, k)
    ensures SortedByVotes(top)
  {
    var sorted := SortByVotes(all);
    var m := Min(k, |all|);
    assert |sorted| == |multiset(sorted)| == |multiset(all)| == |all|;
    SortedPrefixDominates(sorted, m);
    sorted[..m]
  }

  /** In a sorted list, every entry of a prefix has at least the votes of
      every entry after it. */
  lemma SortedPrefixDominates(sorted: seq<Suggestion>, m: nat)
    requires SortedByVotes(sorted) && m <= |sorted|
    ensures multiset(sorted[..m]) <= multiset(sorted)
    ensures forall x, y :: x in sorted[..m] && y in multiset(sorted) - multiset(sorted[..m]) ==> x.votes >= y.votes
  {
    assert sorted == sorted[..m] + sorted[m..];
    assert multiset(sorted) - multiset(sorted[..m]) == multiset(sorted[m..]);
    forall x, y | x in sorted[..m] && y in multiset(sorted[m..])
      ensures x.votes >= y.votes
    {
      var i :| 0 <= i < m && sorted[i] == x;
      assert y in sorted[m..];
      var j :| 0 <= j < |sorted[m..]| && sorted[m..][j] == y;
      assert sorted[m + j] == y;
    }
  }

  /** A selection loses nothing by the ordering of ties: any two selections
      of the same size from the same suggestions hold the same vote counts. */
  lemma {:induction false} TopSelectionsAgreeOnLeastVote(t1: seq<Suggestion>, t2: seq<Suggestion>, all: seq<Suggestion>, k: nat, x: Suggestion)
    requires IsTopSelection(t1, all, k) && IsTopSelection(t2, all, k)
    requires x in t1 && x !in t2
    ensures forall y :: y in t2 && y !in t1 ==> y.votes == x.votes
  {
    forall y | y in t2 && y !in t1
      ensures y.votes == x.votes
    {
      assert x in multiset(all);
      assert multiset(t2)[x] == 0;
      assert x in multiset(all) - multiset(t2);
      assert y in multiset(all);
      assert multiset(t1)[y] == 0;
      assert y in multiset(all) - multiset(t1);
    }
  }
}

=== FILE: routes.dfy ===
/** The HTTP handlers that read or change the cycle. Each gated handler takes
    the flag value it reads as the parameter `gate`: the handlers read the
    flags bound when the routes module was imported, and keeping the value a
    parameter makes every contract below hold whichever value that is. A
    handler answers with a status code, an optional value and the state it
    leaves; every failure leaves the state exactly as it was. */
module Routes {
  import opened Wrappers
  import opened Calendar
  import opened Models
  import opened Ranking
  import opened TitleMatch
  import opened Cycle

  const Ok := 200
  const Created := 201
  const BadRequest := 400
  const Forbidden := 403
  const NotFound := 404
  const Conflict := 409

  /** A handler's status code, the value its JSON body reports, and the state
      after the request. */
  datatype Reply<T> = Reply(status: int, body: Option<T>, state: State)

  /** The JSON body of POST /state, in which either flag may be absent. */
  datatype StateRequest = StateRequest(suggestionsOpen: Option<bool>, pollOpen: Option<bool>)

  /** POST /state: each flag present in the request is set, each absent one
      kept; the tables and jobs are untouched. The reply shows the flag values
      `shown` that the handler reads, which are not the values it just set. */
  function SetState(s: State, req: StateRequest, shown: (bool, bool)): (r: Reply<(bool, bool)>)
    ensures r.status == Ok && r.body == Some(shown)
    ensures req.suggestionsOpen.Some? ==> r.state.suggestionsOpen == req.suggestionsOpen.value
    ensures req.suggestionsOpen.None? ==> r.state.suggestionsOpen == s.suggestionsOpen
    ensures req.pollOpen.Some? ==> r.state.pollOpen == req.pollOpen.value
    ensures req.pollOpen.None? ==> r.state.pollOpen == s.pollOpen
    ensures r.state.(suggestionsOpen := s.suggestionsOpen, pollOpen := s.pollOpen) == s
  {
    var s1 := match req.suggestionsOpen
      case Some(v) => s.(suggestionsOpen := v)
      case None => s;
    var s2 := match req.pollOpen
      case Some(v) => s1.(pollOpen := v)
      case None => s1;
    Reply(Ok, Some(shown), s2)
  }

  /** Repeating a POST /state request changes nothing more. */
  lemma SetStateIdempotent(s: State, req: StateRequest, shown: (bool, bool))
    ensures SetState(SetState(s, req, shown).state, req, shown) == SetState(s, req, shown)
  {
  }

  /** Some stored title matches `title` used as an `ilike` pattern. */
  predicate TitleTaken(sugs: seq<Suggestion>, title: string)
  {
    exists i :: 0 <= i < |sugs| && Like(sugs[i].title, title)
  }

  /** POST /suggestions. The checks run in this order: 403 while the
      gate is closed, 400 for a missing or empty title, 400 for one longer
      than 100 characters, 409 when it matches a stored title, and otherwise
      201 with exactly one new row holding a fresh id, the title and no
      votes. */
  function AddSuggestion(s: State, gate: bool, title: Option<string>, now: DateTime): (r: Reply<nat>)
    ensures r.status == Forbidden <==> !gate
    ensures gate && (title.None? || title.value == []) ==> r.status == BadRequest
    ensures gate && title.Some? && |title.value| > MaxTitleLength ==> r.status == BadRequest
    ensures r.status == BadRequest <==>
            gate && (title.None? || title.value == [] || |title.value| > MaxTitleLength)
    ensures r.status == Conflict <==>
            gate && title.Some? && AcceptableTitle(title.value) && TitleTaken(s.suggestions, title.value)
    ensures gate && title.Some? && AcceptableTitle(title.value) &&
            (exists i :: 0 <= i < |s.suggestions| && FoldEq(s.suggestions[i].title, title.value))
            ==> r.status == Conflict
    ensures r.status == Created <==>
            gate && title.Some? && AcceptableTitle(title.value) && !TitleTaken(s.suggestions, title.value)
    ensures r.status != Created ==> r.state == s && r.body == None
    ensures r.status == Created ==>
      && r.body.Some?
      && r.body.value !in SuggestionIds(s.suggestions)
      && r.state == s.(suggestions := s.suggestions + [Suggestion(r.body.value, title.value, 0, now)])
  {
    if !gate then Reply(Forbidden, None, s)
    else if title.None? || title.value == [] then Reply(BadRequest, None, s)
    else if |title.value| > MaxTitleLength then Reply(BadRequest, None, s)
    else if TitleTaken(s.suggestions, title.value) then Reply(Conflict, None, s)
    else
      NoFoldDuplicate(s.suggestions, title.value);
      var id := NextRowId(SuggestionIds(s.suggestions));
      Reply(Created, Some(id), s.(suggestions := s.suggestions + [Suggestion(id, title.value, 0, now)]))
  }

  /** A title with no `ilike` match equals no stored title up to case. */
  lemma NoFoldDuplicate(sugs: seq<Suggestion>, title: string)
    ensures !TitleTaken(sugs, title) ==>
      forall i :: 0 <= i < |sugs| ==> !FoldEq(sugs[i].title, title)
  {
    forall i | 0 <= i < |sugs| && FoldEq(sugs[i].title, title)
      ensures TitleTaken(sugs, title)
    {
      FoldEqLike(sugs[i].title, title);
    }
  }

  /** GET /suggestions: every stored suggestion once, most votes first. */
  function ListSuggestions(s: State): (r: seq<Suggestion>)
    ensures multiset(r) == multiset(s.suggestions)
    ensures SortedByVotes(r)
  {
    SortByVotes(s.suggestions)
  }

  /** POST /suggestions/<id>/upvote: 403 while the gate is closed, 404 for an
      unknown id, and otherwise that suggestion, and nothing else, gains
      exactly one vote; the reply reports its new count. */
  function Upvote(s: State, gate: bool, id: nat): (r: Reply<nat>)
    ensures !gate ==> r.status == Forbidden && r.state == s
    ensures gate && id !in SuggestionIds(s.suggestions) ==> r.status == NotFound && r.state == s
    ensures gate && id in SuggestionIds(s.suggestions) ==>
      && r.status == Ok
      && (exists i :: 0 <= i < |s.suggestions| && s.suggestions[i].id == id
            && r.body == Some(s.suggestions[i].votes + 1)
            && r.state == s.(suggestions := s.suggestions[i := s.suggestions[i].(votes := s.suggestions[i].votes + 1)]))
  {
    if !gate then Reply(Forbidden, None, s)
    else match IndexOf(SuggestionIds(s.suggestions), id)
      case None => Reply(NotFound, None, s)
      case Some(i) =>
        var votes := s.suggestions[i].votes + 1;
        Reply(Ok, Some(votes), s.(suggestions := s.suggestions[i := s.suggestions[i].(votes := votes)]))
  }

  /** POST /poll/<id>/vote: 403 while the gate is closed, 404 for an unknown
      poll row, and otherwise that row, and nothing else, gains exactly one
      vote; the reply reports its new count. */
  function VotePoll(s: State, gate: bool, id: nat): (r: Reply<nat>)
    ensures !gate ==> r.status == Forbidden && r.state == s
    ensures gate && id !in PollIds(s.poll) ==> r.status == NotFound && r.state == s
    ensures gate && id in PollIds(s.poll) ==>
      && r.status == Ok
      && (exists i :: 0 <= i < |s.poll| && s.poll[i].id == id
            && r.body == Some(s.poll[i].votes + 1)
            && r.state == s.(poll := s.poll[i := s.poll[i].(votes := s.poll[i].votes + 1)]))
  {
    if !gate then Reply(Forbidden, None, s)
    else match IndexOf(PollIds(s.poll), id)
      case None => Reply(NotFound, None, s)
      case Some(i) =>
        var votes := s.poll[i].votes + 1;
        Reply(Ok, Some(votes), s.(poll := s.poll[i := s.poll[i].(votes := votes)]))
  }

  /** POST /close_suggestions: when the gate is open, the flags flip to
      (closed, poll open) and the poll is rebuilt from the top three
      suggestions; unlike the scheduled transition it registers no
      `close_poll_task`. When the gate is closed it answers 400 and changes
      nothing. */
  function CloseSuggestionsRoute(s: State, gate: bool, now: DateTime): (r: Reply<()>)
    ensures gate ==>
      && r.status == Ok
      && !r.state.suggestionsOpen && r.state.pollOpen
      && r.state.suggestions == s.suggestions && r.state.winners == s.winners && r.state.jobs == s.jobs
      && (Distinct(SuggestionIds(s.suggestions)) ==> PollDrawnFrom(r.state.poll, s.suggestions))
    ensures !gate ==> r.status == BadRequest && r.state == s
  {
    if gate then Reply(Ok, None, StartPoll(s, now))
    else Reply(BadRequest, None, s)
  }

  /** Upvoting, with the gate open, each id of `ids` in turn. */
  function UpvoteAll(s: State, ids: seq<nat>): (r: State)
    decreases |ids|
  {
    if ids == [] then s
    else UpvoteAll(Upvote(s, true, ids[0]).state, ids[1..])
  }

  /** No vote is lost when requests are served one at a time: after any run
      of upvotes, each suggestion has gained exactly as many votes as there
      were requests naming its id, and nothing else about it, or about the
      rest of the state, has changed. */
  lemma {:induction false} UpvotesAreCounted(s: State, ids: seq<nat>, k: nat)
    requires Distinct(SuggestionIds(s.suggestions)) && k < |s.suggestions|
    ensures UpvoteAll(s, ids).(suggestions := s.suggestions) == s
    ensures Catalog(UpvoteAll(s, ids).suggestions) == Catalog(s.suggestions)
    ensures UpvoteAll(s, ids).suggestions[k] ==
            s.suggestions[k].(votes := s.suggestions[k].votes + multiset(ids)[s.suggestions[k].id])
    decreases |ids|
  {
    if ids != [] {
      var s1 := Upvote(s, true, ids[0]).state;
      UpvoteStep(s, ids[0], k);
      UpvotesAreCounted(s1, ids[1..], k);
      assert ids == [ids[0]] + ids[1..];
    }
  }

  /** One upvote with the gate open keeps every id and title, and adds one
      vote to the suggestion at `k` exactly when the request names it. */
  lemma UpvoteStep(s: State, id: nat, k: nat)
    requires Distinct(SuggestionIds(s.suggestions)) && k < |s.suggestions|
    ensures Upvote(s, true, id).state.(suggestions := s.suggestions) == s
    ensures Catalog(Upvote(s, true, id).state.suggestions) == Catalog(s.suggestions)
    ensures SuggestionIds(Upvote(s, true, id).state.suggestions) == SuggestionIds(s.suggestions)
    ensures Upvote(s, true, id).state.suggestions[k] ==
            s.suggestions[k].(votes := s.suggestions[k].votes + (if id == s.suggestions[k].id then 1 else 0))
  {
    var s1 := Upvote(s, true, id).state;
    if id in SuggestionIds(s.suggestions) {
      var i :| 0 <= i < |s.suggestions| && s.suggestions[i].id == id &&
               s1 == s.(suggestions := s.suggestions[i := s.suggestions[i].(votes := s.suggestions[i].votes + 1)]);
      assert Catalog(s1.suggestions) == Catalog(s.suggestions);
      assert SuggestionIds(s1.suggestions) == SuggestionIds(s.suggestions);
      if i != k {
        assert SuggestionIds(s.suggestions)[i] != SuggestionIds(s.suggestions)[k] by {
          if i < k {
          } else {
          }
        }
      }
    }
  }
}

=== FILE: scenario.dfy ===
/** One month of the cycle on concrete data: three games are suggested (a
    case variant of the first is refused), voted on, turned into a poll,
    and the poll's winner is recorded once however often the poll closes. */
module Scenario {
  import opened Wrappers
  import opened Calendar
  import opened Models
  import opened Cycle
  import opened Routes
  import opened TitleMatch
  import opened Scheduler
  import opened Ranking

  const Start := DateTime(2024, 2, 1, 0, 0, 0, 0)
  const CloseAt := DateTime(2024, 2, 22, 23, 59, 59, 0)

  const Empty := State(true, false, [], [], [], map[])
  const GameA := Suggestion(1, "Game A", 0, Start)
  const GameB := Suggestion(2, "Game B", 0, Start)
  const GameC := Suggestion(3, "Game C", 0, Start)
  const Suggested := Empty.(suggestions := [GameA, GameB, GameC])
  const VotedA := GameA.(votes := 5)
  const VotedB := GameB.(votes := 2)
  const VotedC := GameC.(votes := 9)
  const Voted := Empty.(suggestions := [VotedA, VotedB, VotedC])

  /** The first title is stored under row id 1 with no votes. */
  lemma FirstSubmission()
    ensures AddSuggestion(Empty, true, Some("Game A"), Start) == Reply(Created, Some(1), Empty.(suggestions := [GameA]))
  {
    assert !TitleTaken([], "Game A");
  }

  /** The same title in lower case is refused as a duplicate. */
  lemma CaseVariantRefused()
    ensures AddSuggestion(Empty.(suggestions := [GameA]), true, Some("game a"), Start).status == Conflict
  {
    assert FoldEq("Game A", "game a");
    FoldEqLike("Game A", "game a");
    assert Like([GameA][0].title, "game a");
  }

  /** Two more titles get the next row ids. */
  lemma LaterSubmissions()
    ensures AddSuggestion(Empty.(suggestions := [GameA]), true, Some("Game B"), Start) == Reply(Created, Some(2), Empty.(suggestions := [GameA, GameB]))
    ensures AddSuggestion(Empty.(suggestions := [GameA, GameB]), true, Some("Game C"), Start) == Reply(Created, Some(3), Suggested)
  {
    SecondSubmission();
    ThirdSubmission();
  }

  lemma SecondSubmission()
    ensures AddSuggestion(Empty.(suggestions := [GameA]), true, Some("Game B"), Start) == Reply(Created, Some(2), Empty.(suggestions := [GameA, GameB]))
  {
    DifferentGames("Game A", "Game B");
    assert !TitleTaken([GameA], "Game B");
  }

  lemma ThirdSubmission()
    ensures AddSuggestion(Empty.(suggestions := [GameA, GameB]), true, Some("Game C"), Start) == Reply(Created, Some(3), Suggested)
  {
    DifferentGames("Game A", "Game C");
    DifferentGames("Game B", "Game C");
    assert !TitleTaken([GameA, GameB], "Game C");
    assert SuggestionIds([GameA, GameB]) == [1, 2];
    assert NextRowId([1, 2]) == 3;
    assert [GameA, GameB] + [Suggestion(3, "Game C", 0, Start)] == Suggested.suggestions;
  }

  /** Titles that differ only in a last capital letter do not match. */
  lemma DifferentGames(a: string, b: string)
    requires |a| == |b| == 6 && a[..5] == b[..5] == "Game " && 'A' <= a[5] <= 'Z' && 'A' <= b[5] <= 'Z' && a[5] != b[5]
    ensures !Like(a, b)
  {
    assert forall i :: 0 <= i < |b| ==> b[i] != '%' && b[i] != '_' by {
      assert b == b[..5] + [b[5]];
    }
    LikeWithoutWildcards(a, b);
    assert Lower(a[5]) != Lower(b[5]);
  }

  /** Five votes for A, two for B, nine for C, in any interleaving. */
  lemma Voting(ids: seq<nat>)
    requires multiset(ids) == multiset{1, 1, 1, 1, 1, 2, 2, 3, 3, 3, 3, 3, 3, 3, 3, 3}
    ensures UpvoteAll(Suggested, ids) == Voted
  {
    var r := UpvoteAll(Suggested, ids);
    VoteCounts(ids);
    VotedRow(ids, 0);
    VotedRow(ids, 1);
    VotedRow(ids, 2);
    UpvotesAreCounted(Suggested, ids, 0);
    assert |Catalog(r.suggestions)| == 3;
    assert r.suggestions == [VotedA, VotedB, VotedC];
  }

  lemma VoteCounts(ids: seq<nat>)
    requires multiset(ids) == multiset{1, 1, 1, 1, 1, 2, 2, 3, 3, 3, 3, 3, 3, 3, 3, 3}
    ensures multiset(ids)[1] == 5 && multiset(ids)[2] == 2 && multiset(ids)[3] == 9
  {
  }

  lemma VotedRow(ids: seq<nat>, k: nat)
    requires k < 3
    requires multiset(ids)[1] == 5 && multiset(ids)[2] == 2 && multiset(ids)[3] == 9
    ensures k < |UpvoteAll(Suggested, ids).suggestions|
    ensures UpvoteAll(Suggested, ids).suggestions[k] == Voted.suggestions[k]
  {
    assert SuggestionIds(Suggested.suggestions) == [1, 2, 3];
    UpvotesAreCounted(Suggested, ids, k);
    assert |Catalog(UpvoteAll(Suggested, ids).suggestions)| == 3;
  }

  lemma RankedLastTwo()
    ensures SortByVotes([VotedB, VotedC]) == [VotedC, VotedB]
  {
    assert [VotedB, VotedC][1..] == [VotedC];
    assert SortByVotes([VotedC]) == [VotedC];
    assert Insert(VotedB, [VotedC]) == [VotedC, VotedB];
  }

  lemma RankedFirst()
    ensures Insert(VotedA, [VotedC, VotedB]) == [VotedC, VotedA, VotedB]
  {
    assert Insert(VotedA, [VotedB]) == [VotedA, VotedB];
    assert [VotedC, VotedB][1..] == [VotedB];
  }

  /** Most votes first: C, A, B. */
  lemma Ranked()
    ensures TopSuggestions(Voted.suggestions, PollSize) == [VotedC, VotedA, VotedB]
  {
    RankedLastTwo();
    RankedFirst();
    assert [VotedA, VotedB, VotedC][1..] == [VotedB, VotedC];
    assert SortByVotes(Voted.suggestions) == [VotedC, VotedA, VotedB];
  }

  const PollC := PollEntry(1, 3, "Game C", 0, CloseAt)
  const PollA := PollEntry(2, 1, "Game A", 0, CloseAt)
  const PollB := PollEntry(3, 2, "Game B", 0, CloseAt)
  const PollCloseAt := DateTime(2024, 2, 29, 23, 59, 59, 0)

  lemma FreshRows()
    ensures FreshPoll([VotedC, VotedA, VotedB], CloseAt) == [PollC, PollA, PollB]
  {
    var p := FreshPoll([VotedC, VotedA, VotedB], CloseAt);
    assert |p| == 3;
    assert p[0] == PollC && p[1] == PollA && p[2] == PollB;
  }

  lemma StartPollRows()
    ensures StartPoll(Voted, CloseAt).poll == FreshPoll(TopSuggestions(Voted.suggestions, PollSize), CloseAt)
  {
  }

  lemma PollRows()
    ensures StartPoll(Voted, CloseAt).poll == [PollC, PollA, PollB]
  {
    Ranked();
    FreshRows();
    StartPollRows();
  }

  /** The poll opens on 22 February 2024 and holds C, A, B, each at zero;
      it is due to close on the 29th, a leap day. */
  lemma PollFromVotes()
    ensures CloseSuggestions(Voted, CloseAt).poll == [PollC, PollA, PollB]
    ensures CloseSuggestions(Voted, CloseAt).jobs[ClosePollJobId].runDate == PollCloseAt
    ensures CloseSuggestions(Voted, CloseAt).winners == []
  {
    AddDaysWithinMonth(CloseAt, PollDays);
    assert AddDays(CloseAt, PollDays) == Some(PollCloseAt);
    PollRows();
  }

  lemma Leader()
    ensures PollLeader([PollC, PollA.(votes := 10), PollB]) == Some(PollA.(votes := 10))
  {
    var p := [PollC, PollA.(votes := 10), PollB];
    assert p[1..] == [PollA.(votes := 10), PollB];
    assert p[1..][1..] == [PollB];
    assert PollLeader([PollB]) == Some(PollB);
  }

  /** After the poll of `PollFromVotes`, A reaches ten poll votes and wins;
      closing the poll again adds nothing. */
  lemma Winning(polled: State)
    requires polled.poll == [PollC, PollA, PollB] && polled.winners == []
    ensures
      var t := polled.(poll := polled.poll[1 := polled.poll[1].(votes := 10)]);
      && ClosePoll(t, PollCloseAt).winners == [Winner(1, "Game A", PollCloseAt)]
      && ClosePoll(ClosePoll(t, PollCloseAt), PollCloseAt) == ClosePoll(t, PollCloseAt)
  {
    var t := polled.(poll := polled.poll[1 := polled.poll[1].(votes := 10)]);
    assert t.poll == [PollC, PollA.(votes := 10), PollB];
    Leader();
    ClosePollIdempotent(t, PollCloseAt, PollCloseAt);
  }
}

=== FILE: scheduler.dfy ===
/** The scheduler's pending one-shot jobs, keyed by job id. Adding a job with
    `replace_existing=True` under an id that is already pending replaces that
    registration, so an id never has two pending jobs. */
module Scheduler {
  import opened Calendar

  const CloseSuggestionsJobId: string := "close_suggestions_task"
  const ClosePollJobId: string := "close_poll_task"

  /** The function a job runs. */
  datatype Task = CloseSuggestionsTask | ClosePollTask

  /** A `'date'`-trigger job: run `task` once at `runDate`. */
  datatype Job = DateJob(runDate: DateTime, task: Task)

  type Jobs = map<string, Job>

  /** `scheduler.add_job(task, 'date', run_date = …, id = id, replace_existing = True)`. */
  function AddJob(jobs: Jobs, id: string, job: Job): (r: Jobs)
    ensures r.Keys == jobs.Keys + {id}
    ensures r[id] == job
    ensures forall k :: k in jobs && k != id ==> r[k] == jobs[k]
  {
    jobs[id := job]
  }

  /** Registering the same id twice leaves only the second registration. */
  lemma AddJobReplaces(jobs: Jobs, id: string, first: Job, second: Job)
    ensures AddJob(AddJob(jobs, id, first), id, second) == AddJob(jobs, id, second)
  {
  }
}

=== FILE: title_match.dfy ===
/** The duplicate-title test of POST /suggestions. On SQLite, SQLAlchemy's
    `ilike` becomes `lower(title) LIKE lower(pattern)`: `%` matches any run of
    characters, `_` any single character, there is no escape character, and
    letters compare without regard to ASCII case. */
module TitleMatch {

  /** SQLite's `lower`, which folds only the ASCII letters. */
  function Lower(c: char): (r: char)
    ensures ('A' <= c <= 'Z') == (r != c)
    ensures 'A' <= c <= 'Z' ==> r as int == c as int + 32
  {
    if 'A' <= c <= 'Z' then (c as int + 32) as char else c
  }

  /** Equality of titles up to ASCII case: the duplicate rule as intended. */
  predicate FoldEq(a: string, b: string)
  {
    |a| == |b| && forall i :: 0 <= i < |a| ==> Lower(a[i]) == Lower(b[i])
  }

  /** `text ILIKE pattern` on SQLite. A non-empty pattern made only of `%`
      matches every text, and a pattern without `%` matches only texts of
      its own length. */
  predicate Like(text: string, pattern: string): (r: bool)
    ensures pattern != [] && (forall k :: 0 <= k < |pattern| ==> pattern[k] == '%') ==> r
    ensures (forall k :: 0 <= k < |pattern| ==> pattern[k] != '%') && r ==> |text| == |pattern|
    decreases |text| + |pattern|
  {
    if pattern == [] then text == []
    else if pattern[0] == '%' then
      assert forall k :: 0 <= k < |pattern[1..]| ==> pattern[1..][k] == pattern[k + 1];
      Like(text, pattern[1..]) || (text != [] && Like(text[1..], pattern))
    else
      assert forall k :: 0 <= k < |pattern[1..]| ==> pattern[1..][k] == pattern[k + 1];
      && text != []
      && (pattern[0] == '_' || Lower(pattern[0]) == Lower(text[0]))
      && Like(text[1..], pattern[1..])
  }

  /** A title that equals another up to ASCII case always matches it as an
      `ilike` pattern, so POST /suggestions refuses every such duplicate. */
  lemma {:induction false} FoldEqLike(text: string, pattern: string)
    requires FoldEq(text, pattern)
    ensures Like(text, pattern)
    decreases |pattern|
  {
    if pattern != [] {
      assert Lower(text[0]) == Lower(pattern[0]);
      assert FoldEq(text[1..], pattern[1..]) by {
        forall i | 0 <= i < |text[1..]|
          ensures Lower(text[1..][i]) == Lower(pattern[1..][i])
        {
          assert Lower(text[i + 1]) == Lower(pattern[i + 1]);
        }
      }
      FoldEqLike(text[1..], pattern[1..]);
      if pattern[0] == '%' {
        assert text[0] == '%';
        assert Like(text[1..], pattern);
      }
    }
  }

  /** A title without `%` or `_` matches exactly the titles equal to it up
      to ASCII case. */
  lemma {:induction false} LikeWithoutWildcards(text: string, pattern: string)
    requires forall i :: 0 <= i < |pattern| ==> pattern[i] != '%' && pattern[i] != '_'
    ensures Like(text, pattern) <==> FoldEq(text, pattern)
    decreases |pattern|
  {
    if pattern == [] {
    } else if text == [] {
    } else {
      LikeWithoutWildcards(text[1..], pattern[1..]);
      if FoldEq(text, pattern) {
        FoldEqLike(text, pattern);
      } else if Like(text, pattern) {
        assert Lower(pattern[0]) == Lower(text[0]);
        assert FoldEq(text[1..], pattern[1..]);
        forall i | 0 <= i < |text| ensures Lower(text[i]) == Lower(pattern[i]) {
          if i > 0 {
            assert Lower(text[1..][i - 1]) == Lower(pattern[1..][i - 1]);
          }
        }
      }
    }
  }

  /** `ilike` is not mere case-insensitive equality: a submitted title `%`
      matches every stored title, though it equals none longer than one
      character. */
  lemma WildcardMatchesAnything(stored: string)
    ensures Like(stored, "%")
    ensures |stored| != 1 ==> !FoldEq(stored, "%")
  {
  }
}

=== FILE: wrappers.dfy ===
/** The optional value of Python's `None`: a missing key, a row that a query
    does not find, or a date that `datetime` cannot represent. */
module Wrappers {

  datatype Option<+T> = None | Some(value: T)
}
